=== FILE: README.md ===
# Tau MVA and lost-lepton object selection, modelled in Dafny

This project models two per-event modules of the NanoSUSY-tools post-processing
chain. Each module is a set of pure functions over sequences of physics-object
records.

- `tauMVACompare` scans the generator particles for tau decay products.
  It matches each reconstructed PF candidate to a generator charged hadron.
  It clamps thirteen features of a candidate and scores them with a boosted-tree
  classifier. It then writes per-candidate scores, six working-point flags and
  truth flags (`gentaumatch`, `GoodTaus`, `FakeTaus`).
- `LLObjectsProducer` selects jets and b-tagged jets, using an era-keyed working-point table.
  It counts vetoed leptons and isolated tracks, orders the jet-MET angles by jet pt,
  and applies the `Pass_dPhiMETMedDM` angular cut.

Every float branch is a Dafny `real`. The host framework's `deltaR` is a function-typed
parameter (`AngleFn`), as are the transverse mass `computeMT` (`mtOf`) and
the classifier (`score`). No property depends on what these functions return.
Python exceptions are values of `Common.Result`:

- The KeyError of `DeepCSVLooseWP[era]` is `UnknownEra`.
- The IndexError of `jets[pfc.contJetIndex]` is `JetIndexOutOfRange`.

Files:

- `common.dfy`: the `Result` and `Error` types, `Abs`, `Min`, `CountTrue` (Python's `sum` over a list of booleans) with counting lemmas, and the order-preserving `Filter`.
- `physics_objects.dfy`: the records `Jet`, `GenPart`, `PFCand`, `Lepton` and `IsoTrack`.
- `tau_select.dfy`, `tau_gen.dfy`, `tau_match.dfy`, `tau_photon.dfy`, `tau_features.dfy` and `tau_analyze.dfy`: the parts of `tauMVACompare`.
- `ll_objects.dfy`: `LLObjectsProducer`.

Notable facts proved about the code as written:

- `nGenLeptons` is always 0. The electron/muon branch reaches `continue` before the lepton increment.
- Every `gentaumatch` entry that is written is true. Reaching the feature block needs a truth match.
  A match needs a charged-hadron decay product, and that product also counts as a hadronic tau decay product.
- For the same reason `FakeTaus` is never set, and `nFakeTaus` is 0.
- If the era is unknown, `LLObjectsProducer.analyze` raises only when the event has at least one jet.
  `SelBtagJets` is the only reader of the table, and it is called once per jet.

`statusFlags & 4` is modelled as `(statusFlags / 4) % 2 == 1`. Dafny's division rounds down for a positive divisor.
So this expression reads bit 2 of the two's-complement word, as Python's `&` does, for negative words too.

## Model

| member | source | states |
|---|---|---|
| TauSelect.SelTauMVA | python/modules/tauMVACompare.py:83-90 | one flag per score; flag i is set iff score i is strictly above the cut |
| TauSelect.SelTauMVANested | python/modules/tauMVACompare.py:237-262 | a higher cut selects a subset of a lower cut's selection, so its count is no larger |
| TauSelect.ThresholdsAscending | python/modules/tauMVACompare.py:237-242 | the six cuts increase from 0.68 to 0.75; the placeholder score -10 passes none of them |
| TauGen.IsA | python/modules/tauMVACompare.py:92-93 | a PDG id is accepted only as the particle or its antiparticle, and always accepts both when the id is non-negative |
| TauGen.GenScanNoLeptons | python/modules/tauMVACompare.py:140-154 | `nGenLeptons` is 0 for every list of generator particles |
| TauGen.GenScanCounts | python/modules/tauMVACompare.py:140-152 | `nGenTaus` is the number of particles with status bit 2; `nGenHadTaus` is that number minus the electrons and muons among them |
| TauGen.GenScanNested | python/modules/tauMVACompare.py:140-158 | 0 <= nGenChHadsAcc <= nGenChHads <= nGenHadTaus <= nGenTaus |
| TauGen.GenScanDecayProds | python/modules/tauMVACompare.py:140-158 | `taudecayprods` is the filter of the generator list by "tau decay product and charged pion or kaon": same order, same multiplicities; so `nGenChHads` is the number of such products |
| TauGen.DecayProdsGiveHadTau | python/modules/tauMVACompare.py:140-152 | a non-empty `taudecayprods` implies nGenHadTaus >= 1 and nGenTaus >= 1 |
| TauMatch.RelPtDiff | python/modules/tauMVACompare.py:179-181 | the relative pt difference is non-negative, and zero when the generator pt is at most 0.5 |
| TauMatch.MatchFromSpec | python/modules/tauMVACompare.py:178-186 | from any state, the loop never raises the best score and ends at or below every pt-compatible hadron's score; it is matched iff it already was or some pt-compatible hadron beats the starting score; a changed state records the score, pt and eta of the first hadron with the least score (every earlier pt-compatible hadron scores strictly worse) |
| TauMatch.MatchGenSpec | python/modules/tauMVACompare.py:167-186 | `match` iff some hadron has dR + 0.01*dpt < 0.05 and dpt < 0.4; `tmpDr` is then the least such score, and ptmatch/etamatch are those of the first hadron attaining it, as the strict < keeps it; with no match the initial state is kept; no hadrons means no match |
| TauMatch.MatchFromAppend | python/modules/tauMVACompare.py:178-186 | running the loop over a + b equals running it over a and then over b |
| TauMatch.BestDrNonIncreasing | python/modules/tauMVACompare.py:178-186 | `tmpDr` after a longer prefix of the hadrons is no larger than after a shorter one |
| TauPhoton.GetNearPhotonIndex | python/modules/tauMVACompare.py:95-110 | the result is -1 or a valid index; it is -1 iff no candidate has nearphopt >= 0.5 and dR <= 0.2; a returned index passes both filters; every later passing candidate has nearphopt at most the returned candidate's pt (the compare-one-store-another quirk); the result is that of the reference fold `SearchAsWritten`, which steps as lines 102-108 do |
| TauPhoton.NearPhotonQuirk | python/modules/tauMVACompare.py:103-108 | on two passing candidates, the first with the larger nearphopt but the smaller pt, the search must return the second, while the corrected fold returns the first |
| TauPhoton.GetNearPhotonIndexMax | python/modules/tauMVACompare.py:95-110 | corrected search: same -1 condition and filters, and the returned candidate has the largest nearphopt among passing candidates and is the first with it; the result is that of the fold `SearchMax` |
| TauFeatures.ContainingJet | python/modules/tauMVACompare.py:203 | IndexError iff contJetIndex >= number of jets; a match is the indexed jet, with pt >= 20 and abs(eta) < 2.4; otherwise the index is negative or the jet fails a cut |
| TauFeatures.ClampFeatures | python/modules/tauMVACompare.py:191-210 | raises exactly as the jet lookup does; otherwise pt <= 300, abseta in [0, 2.4], every chiso/totiso <= 700, contjetdr in [0, 0.4] and contjetcsv >= 0; each in-range input is passed through unchanged, an over-range one becomes its bound; with a matched jet contjetdr is its deltaR clamped into [0, 0.4] and contjetcsv its b-tag value or 0; without one both are 0 |
| TauAnalyze.AnalyzeCandidate | python/modules/tauMVACompare.py:167-236 | raises iff the candidate passes the line-188 cuts and mt < 100 with an out-of-range jet index; a candidate that does not get that far gets score -10 and no flags or gentaumatch entry; one that does gets the entry nGenHadTaus > 0 and the classifier's score of its clamped features; GoodTaus iff it gets that far with nGenHadTaus > 0, nGenLeptons == 0, nGenTaus == nGenHadTaus, more than three jets, MET above 150 and ptmatch > 6; FakeTaus iff it gets that far with nGenHadTaus <= 0, nGenLeptons == 0, nGenTaus == 0, more than three jets and MET above 150 |
| TauAnalyze.CandidateFlags | python/modules/tauMVACompare.py:211-217 | FakeTaus is never set; gentaumatch is true for every candidate that gets an entry; GoodTaus iff the candidate reaches the feature block in an event with nGenTaus == nGenHadTaus > 0, more than three jets and MET above 150, and its ptmatch is above 6 |
| TauAnalyze.AnalyzeCandidates | python/modules/tauMVACompare.py:167-236 | the loop raises iff some candidate raises; otherwise it gives one output per candidate, namely that candidate's output |
| TauAnalyze.GenMatchList | python/modules/tauMVACompare.py:212 | `gentaumatch_` has one entry per candidate output that has one, and each entry is some candidate's entry |
| TauAnalyze.Analyze | python/modules/tauMVACompare.py:126-236 | the event raises iff some candidate passes the cuts and mt < 100 with an out-of-range jet index |
| TauAnalyze.AnalyzeShape | python/modules/tauMVACompare.py:160-266 | taumva, GoodTaus, FakeTaus and each working-point list have one entry per PF candidate; gentaumatch has one entry per candidate reaching the feature block, so no more than the candidates; nGoodTaus and nFakeTaus are the numbers of set GoodTaus and FakeTaus flags |
| TauAnalyze.AnalyzeUnscored | python/modules/tauMVACompare.py:176-212 | a candidate that does not reach the feature block has score -10, no GoodTaus flag and no working-point flag; every gentaumatch entry is true |
| TauAnalyze.AnalyzeScored | python/modules/tauMVACompare.py:188-236 | every candidate reaching the feature block has the classifier's score of its clamped features, which are in range; its GoodTaus flag is set iff nGenTaus == nGenHadTaus > 0, more than three jets, MET above 150 and ptmatch > 6 |
| TauAnalyze.AnalyzeNoFakes | python/modules/tauMVACompare.py:216-267 | every FakeTaus flag is false, nFakeTaus == 0, and no candidate is both GoodTaus and FakeTaus |
| TauAnalyze.AnalyzeWorkingPointsNested | python/modules/tauMVACompare.py:237-262 | TauMVA_Stop0l_XX is the score list's selection at cut XX and nTauMVA_XX its number of set flags; each tighter working point's flags imply the looser one's, so nTauMVA_75 <= ... <= nTauMVA_68 |
| TauGen.GenScanAcc | python/modules/tauMVACompare.py:140-150 | nGenChHadsAcc is the number of charged-pion or kaon tau decay products with pt > 10 and abs(eta) < 2.4 |
| TauAnalyze.AnalyzeGenCounts | python/modules/tauMVACompare.py:246-250 | the written generator counters: nGenTaus is the number of tau decay products, nGenChHads the number of charged-pion or kaon ones, nGenChHadsAcc those of them in acceptance, nGenHadTaus is nGenTaus minus the electron and muon products, nGenLeptons == 0, and the counters are nested |
| LLObjects.WorkingPointTables | python/modules/LLObjectsProducer.py:13-29 | the three tables have keys 2016, 2017 and 2018; the loose DeepCSV cut is below the medium one in each era |
| LLObjects.MetBranchName | python/modules/LLObjectsProducer.py:33-39 | the MET branch is METFixEE2017 iff the era is 2017, and MET otherwise |
| LLObjects.LooseWP | python/modules/LLObjectsProducer.py:13-17 | the lookup succeeds iff the era is 2016, 2017 or 2018 and gives that era's loose cut; otherwise it fails with the era |
| LLObjects.SelJets | python/modules/LLObjectsProducer.py:77-80 | a jet is selected iff pt >= 20 and -2.4 <= eta <= 2.4, with both boundaries accepted |
| LLObjects.SelJetsHighPt | python/modules/LLObjectsProducer.py:82-85 | the same with pt >= 75, so every high-pt jet is a selected jet |
| LLObjects.SelBtagJets | python/modules/LLObjectsProducer.py:87-91 | raises iff the era is unknown; otherwise true iff btagDeepB >= that era's loose cut, boundary included |
| LLObjects.BtagFlags | python/modules/LLObjectsProducer.py:125 | raises iff there is a jet and the era is unknown; otherwise one b-tag flag per jet |
| LLObjects.BJetFlags | python/modules/LLObjectsProducer.py:124-126 | raises iff there is a jet and the era is unknown; otherwise flag i is set iff jet i is selected and passes the loose cut |
| LLObjects.PassLeptonVeto | python/modules/LLObjectsProducer.py:60-65 | the count is at most the number of electrons, muons and tracks |
| LLObjects.LeptonVetoWithoutIsoTracks | python/modules/LLObjectsProducer.py:60-65 | with mva=True the count is lower by exactly the number of selected isolated tracks, so it is no larger; the two agree when there are no tracks |
| LLObjects.IsoTrackCountsBounded | python/modules/LLObjectsProducer.py:129-130 | countIskLep + countIskHad <= the number of selected isolated tracks, because the pdgId classes {11, 13} and {211} are disjoint |
| LLObjects.AcceptedJets | python/modules/LLObjectsProducer.py:96-101 | keeps exactly the jets with abs(eta) <= 4.7 and pt >= 20, each with its multiplicity; its length is their count |
| LLObjects.InsertByPt | python/modules/LLObjectsProducer.py:102 | insertion adds exactly one jet, and the head of the result is the inserted jet or the old head |
| LLObjects.InsertByPtSorted | python/modules/LLObjectsProducer.py:102 | inserting into a pt-descending list keeps it pt-descending |
| LLObjects.InsertByPtDPhis | python/modules/LLObjectsProducer.py:102 | insertion adds exactly the inserted jet's dPhiMET to the multiset of angles |
| LLObjects.SortByPt | python/modules/LLObjectsProducer.py:102 | the result is a permutation of the input, with non-increasing pt, and its angles are a permutation of the input's |
| LLObjects.GetJetSortedIdx | python/modules/LLObjectsProducer.py:93-102 | one angle per accepted jet; a permutation of the accepted jets' dPhiMET; read off an arrangement of exactly the accepted jets with non-increasing pt |
| LLObjects.AnyBelow | python/modules/LLObjectsProducer.py:106 | true iff some zipped pair (up to the shorter length) has a < b |
| LLObjects.AllAbove | python/modules/LLObjectsProducer.py:108 | true iff every zipped pair (up to the shorter length) has a > b |
| LLObjects.PassdPhi | python/modules/LLObjectsProducer.py:104-108 | the inverted form is "some a < b" and the plain form is "all a > b" over the first min(len, len) pairs; an empty pairing gives inverted = false and plain = true |
| LLObjects.PassdPhiExclusive | python/modules/LLObjectsProducer.py:104-108 | a plain pass implies an inverted fail on the same input; an angle equal to its cut fails both |
| LLObjects.MedDMCutOf | python/modules/LLObjectsProducer.py:104-106 | the inverted cut against [0.15, 0.15, 0.15] passes iff one of the first three angles is below 0.15 |
| LLObjects.PassdPhiMedDM | python/modules/LLObjectsProducer.py:132-133 | Pass_dPhiMETMedDM iff one of the up to three leading accepted jets has dPhiMET < 0.15; false when no jet is accepted |
| LLObjects.Analyze | python/modules/LLObjectsProducer.py:110-145 | raises iff there is a jet and the era is unknown; otherwise Jet_Stop0l, Jet_Stop0lHighPt and BJet_Stop0l are the per-jet SelJets, SelJetsHighPt and b-jet flags; Stop0l_nJets_HighPt, Stop0l_nbtags_Loose, nLeptonVeto, Stop0l_nIsoTracksLep and Stop0l_nIsoTracksHad are their sums (the mva=False veto for nLeptonVeto), so the first two are at most the selected-jet count, the isotrack lepton and hadron counts sum to at most the selected tracks, and Stop0l_nVetoElecMuon equals the mva=True veto and is at most nLeptonVeto |

## Left out

- `XGBHelper` and xgboost inference are a foreign library. The classifier is the parameter `score` over the thirteen-feature record.
- `transverseMass` and `computeMT` are cos/sqrt floating-point numerics on `TLorentzVector`. The transverse mass is the parameter `mtOf`, and only the `mt < 100` cut is modelled. The `mt_` list is built but never written, so it is not modelled.
- TauAnalyze.Reaches: the transverse mass is taken as a function `mtOf` of the modelled candidate fields. `computeMT` also reads the candidate's `mass`, which `PFCand` does not carry, so two candidates that differ only in mass get the same mt here. No stated property depends on the value of mt.
- `SelMtlepMET` is the same floating-point numerics, so the `Stop0l_MtLepMET` branch is not modelled.
- `deltaR`, `deltaPhi` and `closest` come from the host framework. `deltaR` is an arbitrary real-valued function parameter; the other two are not used by the modelled code.
- Framework plumbing is not modelled: `Collection`/`Object` access, `beginJob`, `endJob`, `beginFile` branch declarations, `endFile` and `fillBranch`. The output records stand for the written branches.
- python/processors/Stop0l_postproc_LL.py and python/processors/Stop0l_postproc_tauMVA_Train.py are argument parsing, file lists and `PostProcessor` configuration: I/O with nothing to prove.
- Floating-point rounding, NaN and infinities are not modelled; every float is an exact real.
- LLObjects.GetJetSortedIdx: does not fix the order of jets with equal pt. `np.argsort` gives no tie order, and the model's insertion sort picks one of the orders the contract allows.

## Findings

| source | as written | input that shows it | evidently intended | confidence | as-written member | corrected member |
|---|---|---|---|---|---|---|
| python/modules/tauMVACompare.py:106-108 | the running maximum is compared with `c.nearphopt` but assigned `c.pt`, so the search does not return the passing candidate with the largest `nearphopt` | two passing candidates, the first with nearphopt 5 and pt 1, the second with nearphopt 2 and pt 0: the search returns the second | compare and store the same quantity, returning the passing candidate with the largest `nearphopt` | low, not executed | TauPhoton.GetNearPhotonIndex (exhibited by TauPhoton.NearPhotonQuirk) | TauPhoton.GetNearPhotonIndexMax |

The search only feeds `computeMT`, which is a parameter of this model. So neither version of the search is used by the rest of the model.

=== FILE: common.dfy ===
/** Shared vocabulary of both selection modules: the exceptions the Python
    code can raise, modelled as a Result; absolute value and min on reals;
    and Python's `sum()` over a list of booleans. */
module Common {

  /** The two exceptions the modelled code can raise. */
  datatype Error =
    | UnknownEra(era: string)                      // KeyError on a working-point table
    | JetIndexOutOfRange(index: int, nJets: nat)   // IndexError on the Jet collection

  datatype Result<T> = Ok(value: T) | Err(error: Error)

  datatype Option<T> = None | Some(value: T)

  /** `abs` / `math.fabs` on a float. */
  function Abs(x: real): (r: real)
    ensures r >= 0.0
    ensures r == x || r == -x
  {
    if x < 0.0 then -x else x
  }

  /** `abs` on an integer (PDG identifiers). */
  function AbsInt(x: int): (r: nat)
    ensures r == x || r == -x
  {
    if x < 0 then -x else x
  }

  /** Python's two-argument `min`. */
  function Min(a: real, b: real): (r: real)
    ensures r <= a && r <= b
    ensures r == a || r == b
  {
    if b < a then b else a
  }

  /** `sum(flags)` for a list of booleans: the number of true entries. */
  function CountTrue(bs: seq<bool>): (n: nat)
    ensures n <= |bs|
  {
    if |bs| == 0 then 0
    else CountTrue(bs[..|bs| - 1]) + (if bs[|bs| - 1] then 1 else 0)
  }

  /** One flag per element of `s`: whether it satisfies `p`. */
  function Flags<T>(s: seq<T>, p: T -> bool): (r: seq<bool>)
    ensures |r| == |s|
  {
    seq(|s|, i requires 0 <= i < |s| => p(s[i]))
  }

  /** The elements of `s` that satisfy `p`, in their order (a list
      comprehension with an `if`). Each kept element keeps its multiplicity,
      and the length is the number of elements satisfying `p`. */
  function Filter<T(==, !new)>(s: seq<T>, p: T -> bool): (r: seq<T>)
    ensures |r| == CountTrue(Flags(s, p))
    ensures forall x :: x in r <==> x in s && p(x)
    ensures forall x :: multiset(r)[x] == if p(x) then multiset(s)[x] else 0
  {
    if |s| == 0 then []
    else
      var init := s[..|s| - 1];
      var last := s[|s| - 1];
      assert Flags(s, p)[..|s| - 1] == Flags(init, p);
      assert s == init + [last];
      Filter(init, p) + (if p(last) then [last] else [])
  }

  /** Filtering distributes over concatenation: with the filter of a
      one-element list this fixes the order of the kept elements. */
  lemma {:induction false} FilterAppend<T(!new)>(a: seq<T>, b: seq<T>, p: T -> bool)
    ensures Filter(a + b, p) == Filter(a, p) + Filter(b, p)
    decreases |b|
  {
    if |b| == 0 {
      assert a + b == a;
    } else {
      var init := b[..|b| - 1];
      var last := b[|b| - 1];
      var tail := if p(last) then [last] else [];
      assert (a + b)[..|a + b| - 1] == a + init;
      assert (a + b)[|a + b| - 1] == last;
      assert Filter(a + b, p) == Filter(a + init, p) + tail;
      FilterAppend(a, init, p);
      assert Filter(b, p) == Filter(init, p) + tail;
      AppendAssoc(Filter(a, p), Filter(init, p), tail);
    }
  }

  lemma AppendAssoc<T>(x: seq<T>, y: seq<T>, z: seq<T>)
    ensures (x + y) + z == x + (y + z)
  {
  }

  lemma {:induction false} CountTrueNone(bs: seq<bool>)
    requires forall i :: 0 <= i < |bs| ==> !bs[i]
    ensures CountTrue(bs) == 0
  {
    if |bs| > 0 {
      CountTrueNone(bs[..|bs| - 1]);
    }
  }

  /** A list whose entries each imply the matching entry of another counts no more. */
  lemma {:induction false} CountTrueMonotone(a: seq<bool>, b: seq<bool>)
    requires |a| == |b|
    requires forall i :: 0 <= i < |a| && a[i] ==> b[i]
    ensures CountTrue(a) <= CountTrue(b)
  {
    if |a| > 0 {
      CountTrueMonotone(a[..|a| - 1], b[..|b| - 1]);
    }
  }

  /** Two lists that are never true at the same position, and are both covered
      by a third, count together no more than the third. */
  lemma {:induction false} CountTrueDisjoint(a: seq<bool>, b: seq<bool>, c: seq<bool>)
    requires |a| == |c| && |b| == |c|
    requires forall i :: 0 <= i < |c| ==> !(a[i] && b[i])
    requires forall i :: 0 <= i < |c| && (a[i] || b[i]) ==> c[i]
    ensures CountTrue(a) + CountTrue(b) <= CountTrue(c)
  {
    if |c| > 0 {
      CountTrueDisjoint(a[..|a| - 1], b[..|b| - 1], c[..|c| - 1]);
    }
  }
}

=== FILE: ll_objects.dfy ===
/** `LLObjectsProducer`: the jet, b-tag and lepton-veto selections of the
    lost-lepton analysis, the pt-ordered jet-MET angles and the angular cut. */
module LLObjects {
  import opened Common
  import opened PhysicsObjects

  /** DeepCSV and CSVv2 working points per data-taking era. */
  const DeepCSVLooseWP: map<string, real> := map["2016" := 0.2217, "2017" := 0.1522, "2018" := 0.1241]
  const DeepCSVMediumWP: map<string, real> := map["2016" := 0.6324, "2017" := 0.4941, "2018" := 0.4184]
  const CSVv2MediumWP: map<string, real> := map["2016" := 0.8484, "2017" := 0.8838, "2018" := 0.8838]

  const Eras: set<string> := {"2016", "2017", "2018"}

  /** The three tables cover the same eras, and in each era the loose
      DeepCSV cut lies below the medium one, so a medium b-tag is a loose one. */
  lemma WorkingPointTables()
    ensures DeepCSVLooseWP.Keys == Eras && DeepCSVMediumWP.Keys == Eras && CSVv2MediumWP.Keys == Eras
    ensures forall era :: era in Eras ==> DeepCSVLooseWP[era] < DeepCSVMediumWP[era]
  {
  }

  /** The MET object read for an era: the EE-noise-fixed MET in 2017. */
  function MetBranchName(era: string): (name: string)
    ensures name == "METFixEE2017" <==> era == "2017"
    ensures name == "MET" <==> era != "2017"
  {
    if era == "2017" then "METFixEE2017" else "MET"
  }

  /** `DeepCSVLooseWP[era]`, a KeyError outside the three eras. */
  function LooseWP(era: string): (r: Result<real>)
    ensures r.Ok? <==> era in Eras
    ensures r.Ok? ==> r.value == DeepCSVLooseWP[era]
    ensures r.Err? ==> r.error == UnknownEra(era)
  {
    if era in DeepCSVLooseWP then Ok(DeepCSVLooseWP[era]) else Err(UnknownEra(era))
  }

  /** `SelJets`: both boundaries are accepted. */
  function SelJets(jet: Jet): (ok: bool)
    ensures ok <==> jet.pt >= 20.0 && -2.4 <= jet.eta <= 2.4
  {
    !(jet.pt < 20.0 || Abs(jet.eta) > 2.4)
  }

  /** `SelJetsHighPt`: the jet selection with a pt cut of 75. */
  function SelJetsHighPt(jet: Jet): (ok: bool)
    ensures ok <==> jet.pt >= 75.0 && -2.4 <= jet.eta <= 2.4
    ensures ok ==> SelJets(jet)
  {
    !(jet.pt < 75.0 || Abs(jet.eta) > 2.4)
  }

  /** `SelBtagJets`: the loose DeepCSV cut of the era. */
  function SelBtagJets(era: string, jet: Jet): (r: Result<bool>)
    ensures r.Err? <==> era !in Eras
    ensures r.Ok? ==> (r.value <==> jet.btagDeepB >= DeepCSVLooseWP[era])
  {
    match LooseWP(era)
    case Err(e) => Err(e)
    case Ok(wp) => Ok(jet.btagDeepB >= wp)
  }

  function JetFlags(jets: seq<Jet>): (r: seq<bool>)
    ensures |r| == |jets|
  {
    seq(|jets|, i requires 0 <= i < |jets| => SelJets(jets[i]))
  }

  function HighPtJetFlags(jets: seq<Jet>): (r: seq<bool>)
    ensures |r| == |jets|
  {
    seq(|jets|, i requires 0 <= i < |jets| => SelJetsHighPt(jets[i]))
  }

  /** `map(self.SelBtagJets, jets)`: the first jet raises when the era is unknown. */
  function BtagFlags(era: string, jets: seq<Jet>): (r: Result<seq<bool>>)
    ensures r.Err? <==> |jets| > 0 && era !in Eras
    ensures r.Ok? ==> |r.value| == |jets|
    ensures r.Ok? ==> forall i :: 0 <= i < |jets| ==> (r.value[i] <==> jets[i].btagDeepB >= DeepCSVLooseWP[era])
  {
    if |jets| == 0 then Ok([])
    else
      match BtagFlags(era, jets[..|jets| - 1])
      case Err(e) => Err(e)
      case Ok(flags) =>
        match SelBtagJets(era, jets[|jets| - 1])
        case Err(e) => Err(e)
        case Ok(b) => Ok(flags + [b])
  }

  /** `BJet_Stop0l`: the selected jets that pass the loose b-tag cut. */
  function BJetFlags(era: string, jets: seq<Jet>): (r: Result<seq<bool>>)
    ensures r.Err? <==> |jets| > 0 && era !in Eras
    ensures r.Ok? ==> |r.value| == |jets|
    ensures r.Ok? ==> forall i :: 0 <= i < |jets| ==>
              (r.value[i] <==> SelJets(jets[i]) && jets[i].btagDeepB >= DeepCSVLooseWP[era])
  {
    match BtagFlags(era, jets)
    case Err(e) => Err(e)
    case Ok(btag) =>
      var sel := JetFlags(jets);
      Ok(seq(|jets|, i requires 0 <= i < |jets| => sel[i] && btag[i]))
  }

  function LeptonFlags(ls: seq<Lepton>): (r: seq<bool>)
    ensures |r| == |ls|
  {
    seq(|ls|, i requires 0 <= i < |ls| => ls[i].stop0l)
  }

  function IsoTrackFlags(ts: seq<IsoTrack>): (r: seq<bool>)
    ensures |r| == |ts|
  {
    seq(|ts|, i requires 0 <= i < |ts| => ts[i].stop0l)
  }

  /** `PassLeptonVeto`: the number of selected electrons, muons and (unless
      `mva`) isolated tracks. */
  function PassLeptonVeto(eles: seq<Lepton>, muons: seq<Lepton>, isks: seq<IsoTrack>, mva: bool): (n: nat)
    ensures n <= |eles| + |muons| + |isks|
  {
    var countEle := CountTrue(LeptonFlags(eles));
    var countMu := CountTrue(LeptonFlags(muons));
    var countIsk := CountTrue(IsoTrackFlags(isks));
    if mva then countEle + countMu else countEle + countMu + countIsk
  }

  /** Dropping the isolated tracks (`mva=True`) removes exactly the selected
      isolated tracks from the count. */
  lemma LeptonVetoWithoutIsoTracks(eles: seq<Lepton>, muons: seq<Lepton>, isks: seq<IsoTrack>)
    ensures PassLeptonVeto(eles, muons, isks, true) <= PassLeptonVeto(eles, muons, isks, false)
    ensures PassLeptonVeto(eles, muons, isks, false) - PassLeptonVeto(eles, muons, isks, true)
              == CountTrue(IsoTrackFlags(isks))
    ensures |isks| == 0 ==> PassLeptonVeto(eles, muons, isks, true) == PassLeptonVeto(eles, muons, isks, false)
  {
    if |isks| == 0 {
      CountTrueNone(IsoTrackFlags(isks));
    }
  }

  predicate IsLepTrack(t: IsoTrack)
  {
    AbsInt(t.pdgId) == 11 || AbsInt(t.pdgId) == 13
  }

  predicate IsHadTrack(t: IsoTrack)
  {
    AbsInt(t.pdgId) == 211
  }

  /** `countIskLep`: selected isolated tracks from electrons or muons. */
  function CountIskLep(isks: seq<IsoTrack>): nat
  {
    CountTrue(seq(|isks|, i requires 0 <= i < |isks| => isks[i].stop0l && IsLepTrack(isks[i])))
  }

  /** `countIskHad`: selected isolated tracks from charged pions. */
  function CountIskHad(isks: seq<IsoTrack>): nat
  {
    CountTrue(seq(|isks|, i requires 0 <= i < |isks| => isks[i].stop0l && IsHadTrack(isks[i])))
  }

  /** A track is never both leptonic and hadronic, so the two counts together
      do not exceed the selected isolated tracks. */
  lemma IsoTrackCountsBounded(isks: seq<IsoTrack>)
    ensures CountIskLep(isks) + CountIskHad(isks) <= CountTrue(IsoTrackFlags(isks))
  {
    CountTrueDisjoint(
      seq(|isks|, i requires 0 <= i < |isks| => isks[i].stop0l && IsLepTrack(isks[i])),
      seq(|isks|, i requires 0 <= i < |isks| => isks[i].stop0l && IsHadTrack(isks[i])),
      IsoTrackFlags(isks));
  }

  /** The jets `GetJetSortedIdx` keeps: |eta| at most 4.7 and pt at least 20. */
  predicate InSortAcceptance(j: Jet)
  {
    !(Abs(j.eta) > 4.7 || j.pt < 20.0)
  }

  function SortAcceptanceFlags(jets: seq<Jet>): (r: seq<bool>)
    ensures |r| == |jets|
    ensures forall i :: 0 <= i < |jets| ==> (r[i] <==> InSortAcceptance(jets[i]))
  {
    Flags(jets, InSortAcceptance)
  }

  /** The accepted jets, in their original order: each accepted jet with its
      multiplicity, and no other jet. */
  function AcceptedJets(jets: seq<Jet>): (r: seq<Jet>)
    ensures |r| == CountTrue(SortAcceptanceFlags(jets))
    ensures forall j :: multiset(r)[j] == if InSortAcceptance(j) then multiset(jets)[j] else 0
    ensures forall j :: j in r <==> j in jets && InSortAcceptance(j)
  {
    Filter(jets, InSortAcceptance)
  }

  /** Non-increasing pt. */
  predicate PtDescending(s: seq<Jet>)
  {
    forall i, k :: 0 <= i < k < |s| ==> s[i].pt >= s[k].pt
  }

  function DPhis(s: seq<Jet>): (r: seq<real>)
    ensures |r| == |s|
  {
    seq(|s|, i requires 0 <= i < |s| => s[i].dPhiMET)
  }

  lemma DPhisCons(j: Jet, s: seq<Jet>)
    ensures DPhis([j] + s) == [j.dPhiMET] + DPhis(s)
  {
  }

  /** Insertion of a jet in front of the first jet with a lower pt. */
  function InsertByPt(j: Jet, s: seq<Jet>): (r: seq<Jet>)
    ensures |r| == |s| + 1
    ensures multiset(r) == multiset(s) + multiset{j}
    ensures r[0] == j || (|s| > 0 && r[0] == s[0])
  {
    if |s| == 0 || j.pt >= s[0].pt then [j] + s
    else
      assert s == [s[0]] + s[1..];
      [s[0]] + InsertByPt(j, s[1..])
  }

  /** Insertion keeps a list pt-descending. */
  lemma {:induction false} InsertByPtSorted(j: Jet, s: seq<Jet>)
    requires PtDescending(s)
    ensures PtDescending(InsertByPt(j, s))
  {
    if |s| > 0 && j.pt < s[0].pt {
      var rest := InsertByPt(j, s[1..]);
      InsertByPtSorted(j, s[1..]);
      assert rest[0].pt <= s[0].pt;
      assert [s[0]] + rest == InsertByPt(j, s);
    }
  }

  /** Insertion adds the jet's angle to the angles of the list. */
  lemma {:induction false} InsertByPtDPhis(j: Jet, s: seq<Jet>)
    ensures multiset(DPhis(InsertByPt(j, s))) == multiset(DPhis(s)) + multiset{j.dPhiMET}
  {
    if |s| == 0 || j.pt >= s[0].pt {
      DPhisCons(j, s);
    } else {
      var rest := InsertByPt(j, s[1..]);
      InsertByPtDPhis(j, s[1..]);
      assert s == [s[0]] + s[1..];
      DPhisCons(s[0], s[1..]);
      DPhisCons(s[0], rest);
    }
  }

  /** Insertion sort by descending pt (the order of equal pts is not the
      source's concern). */
  function SortByPt(s: seq<Jet>): (r: seq<Jet>)
    ensures |r| == |s|
    ensures PtDescending(r)
    ensures multiset(r) == multiset(s)
    ensures multiset(DPhis(r)) == multiset(DPhis(s))
  {
    if |s| == 0 then []
    else
      var sorted := SortByPt(s[1..]);
      assert s == [s[0]] + s[1..];
      DPhisCons(s[0], s[1..]);
      InsertByPtSorted(s[0], sorted);
      InsertByPtDPhis(s[0], sorted);
      InsertByPt(s[0], sorted)
  }

  /** `GetJetSortedIdx`: the `dPhiMET` of the accepted jets, leading jet
      first. The list is read off some pt-descending arrangement of exactly
      the accepted jets, so it is a permutation of their angles and has one
      entry per accepted jet. */
  function GetJetSortedIdx(jets: seq<Jet>): (r: seq<real>)
    ensures |r| == CountTrue(SortAcceptanceFlags(jets))
    ensures multiset(r) == multiset(DPhis(AcceptedJets(jets)))
    ensures exists s :: multiset(s) == multiset(AcceptedJets(jets)) && PtDescending(s) && r == DPhis(s)
  {
    var s := SortByPt(AcceptedJets(jets));
    assert multiset(s) == multiset(AcceptedJets(jets)) && PtDescending(s);
    DPhis(s)
  }

  /** `any(a < b for a, b in zip(sortedPhi, dPhiCuts))`. */
  function AnyBelow(a: seq<real>, b: seq<real>): (r: bool)
    ensures r <==> exists i :: 0 <= i < |a| && i < |b| && a[i] < b[i]
  {
    if |a| == 0 || |b| == 0 then false
    else
      assert forall i :: 0 <= i < |a| - 1 && i < |b| - 1 ==> a[1..][i] == a[i + 1] && b[1..][i] == b[i + 1];
      a[0] < b[0] || AnyBelow(a[1..], b[1..])
  }

  /** `all(a > b for a, b in zip(sortedPhi, dPhiCuts))`. */
  function AllAbove(a: seq<real>, b: seq<real>): (r: bool)
    ensures r <==> forall i :: 0 <= i < |a| && i < |b| ==> a[i] > b[i]
  {
    if |a| == 0 || |b| == 0 then true
    else
      assert forall i :: 0 <= i < |a| - 1 && i < |b| - 1 ==> a[1..][i] == a[i + 1] && b[1..][i] == b[i + 1];
      a[0] > b[0] && AllAbove(a[1..], b[1..])
  }

  /** `PassdPhi`: `zip` pairs only the first min(len, len) entries. The
      inverted form asks for some angle below its cut, the plain form for
      every angle above it; on an empty pairing the first fails and the
      second passes. */
  function PassdPhi(sortedPhi: seq<real>, dPhiCuts: seq<real>, invertdPhi: bool): (pass: bool)
    ensures invertdPhi ==>
              (pass <==> exists i :: 0 <= i < |sortedPhi| && i < |dPhiCuts| && sortedPhi[i] < dPhiCuts[i])
    ensures !invertdPhi ==>
              (pass <==> forall i :: 0 <= i < |sortedPhi| && i < |dPhiCuts| ==> sortedPhi[i] > dPhiCuts[i])
    ensures |sortedPhi| == 0 || |dPhiCuts| == 0 ==> pass == !invertdPhi
  {
    if invertdPhi then AnyBelow(sortedPhi, dPhiCuts) else AllAbove(sortedPhi, dPhiCuts)
  }

  /** Passing the plain cut means failing the inverted one; the converse
      fails when an angle equals its cut. */
  lemma PassdPhiExclusive(sortedPhi: seq<real>, dPhiCuts: seq<real>)
    ensures PassdPhi(sortedPhi, dPhiCuts, false) ==> !PassdPhi(sortedPhi, dPhiCuts, true)
    ensures !PassdPhi([0.15], [0.15], false) && !PassdPhi([0.15], [0.15], true)
  {
  }

  /** The cuts of `Pass_dPhiMETMedDM`, one per leading jet. */
  const MedDMdPhiCuts: seq<real> := [0.15, 0.15, 0.15]

  /** The inverted cut against `MedDMdPhiCuts` asks for one of the (up to)
      three leading angles to be below 0.15. */
  lemma MedDMCutOf(sortedPhi: seq<real>)
    ensures PassdPhi(sortedPhi, MedDMdPhiCuts, true) <==>
              exists i :: 0 <= i < 3 && i < |sortedPhi| && sortedPhi[i] < 0.15
  {
    if exists i :: 0 <= i < 3 && i < |sortedPhi| && sortedPhi[i] < 0.15 {
      var i :| 0 <= i < 3 && i < |sortedPhi| && sortedPhi[i] < 0.15;
      assert sortedPhi[i] < MedDMdPhiCuts[i];
    }
  }

  /** `Pass_dPhiMETMedDM` holds iff one of the (up to) three leading jets
      lies within 0.15 of the MET direction; with no accepted jet it fails. */
  lemma PassdPhiMedDM(jets: seq<Jet>)
    ensures var sortedPhi := GetJetSortedIdx(jets);
      PassdPhi(sortedPhi, MedDMdPhiCuts, true) <==>
        exists i :: 0 <= i < 3 && i < |sortedPhi| && sortedPhi[i] < 0.15
    ensures CountTrue(SortAcceptanceFlags(jets)) == 0 ==> !PassdPhi(GetJetSortedIdx(jets), MedDMdPhiCuts, true)
  {
    MedDMCutOf(GetJetSortedIdx(jets));
  }

  /** The collections the module reads. */
  datatype LLEvent = LLEvent(electrons: seq<Lepton>, muons: seq<Lepton>, isotracks: seq<IsoTrack>, jets: seq<Jet>)

  /** The per-jet flags the module keeps and the branches it writes. */
  datatype LLOutput = LLOutput(
    jetStop0l: seq<bool>,
    jetStop0lHighPt: seq<bool>,
    bjetStop0l: seq<bool>,
    nJetsHighPt: nat,
    nbtagsLoose: nat,
    nLeptonVeto: nat,
    nIsoTracksLep: nat,
    nIsoTracksHad: nat,
    nVetoElecMuon: nat,
    passDPhiMETMedDM: bool)

  /** The branches of an event whose b-tag flags `bjets` were computed. */
  function Assemble(ev: LLEvent, bjets: seq<bool>): (out: LLOutput)
    requires |bjets| == |ev.jets|
    requires forall i :: 0 <= i < |ev.jets| && bjets[i] ==> SelJets(ev.jets[i])
    ensures |out.jetStop0l| == |out.jetStop0lHighPt| == |ev.jets|
    ensures forall i :: 0 <= i < |ev.jets| ==>
              && (out.jetStop0l[i] <==> SelJets(ev.jets[i]))
              && (out.jetStop0lHighPt[i] <==> SelJetsHighPt(ev.jets[i]))
    ensures out.bjetStop0l == bjets
    ensures out.nJetsHighPt == CountTrue(out.jetStop0lHighPt) <= CountTrue(out.jetStop0l)
    ensures out.nbtagsLoose == CountTrue(bjets) <= CountTrue(out.jetStop0l)
    ensures out.nLeptonVeto == PassLeptonVeto(ev.electrons, ev.muons, ev.isotracks, false)
    ensures out.nIsoTracksLep == CountIskLep(ev.isotracks)
    ensures out.nIsoTracksHad == CountIskHad(ev.isotracks)
    ensures out.nIsoTracksLep + out.nIsoTracksHad <= CountTrue(IsoTrackFlags(ev.isotracks))
    ensures out.nVetoElecMuon == PassLeptonVeto(ev.electrons, ev.muons, ev.isotracks, true) <= out.nLeptonVeto
    ensures out.passDPhiMETMedDM == PassdPhi(GetJetSortedIdx(ev.jets), MedDMdPhiCuts, true)
  {
    var jetsHighPt := HighPtJetFlags(ev.jets);
    var jetsSel := JetFlags(ev.jets);
    CountTrueMonotone(jetsHighPt, jetsSel);
    CountTrueMonotone(bjets, jetsSel);
    IsoTrackCountsBounded(ev.isotracks);
    LLOutput(
      jetsSel, jetsHighPt, bjets,
      CountTrue(jetsHighPt),
      CountTrue(bjets),
      PassLeptonVeto(ev.electrons, ev.muons, ev.isotracks, false),
      CountIskLep(ev.isotracks),
      CountIskHad(ev.isotracks),
      CountTrue(LeptonFlags(ev.electrons)) + CountTrue(LeptonFlags(ev.muons)),
      PassdPhi(GetJetSortedIdx(ev.jets), MedDMdPhiCuts, true))
  }

  /** `LLObjectsProducer.analyze` for one event of the given era. */
  function Analyze(era: string, ev: LLEvent): (r: Result<LLOutput>)
    ensures r.Err? <==> |ev.jets| > 0 && era !in Eras
    ensures r.Ok? ==> |r.value.jetStop0l| == |r.value.jetStop0lHighPt| == |r.value.bjetStop0l| == |ev.jets|
    ensures r.Ok? ==> forall i :: 0 <= i < |ev.jets| ==>
              && (r.value.jetStop0l[i] <==> SelJets(ev.jets[i]))
              && (r.value.jetStop0lHighPt[i] <==> SelJetsHighPt(ev.jets[i]))
    ensures r.Ok? ==> r.value.bjetStop0l == BJetFlags(era, ev.jets).value
    ensures r.Ok? ==> r.value.nJetsHighPt == CountTrue(r.value.jetStop0lHighPt)
    ensures r.Ok? ==> r.value.nbtagsLoose == CountTrue(r.value.bjetStop0l)
    ensures r.Ok? ==> r.value.nJetsHighPt <= CountTrue(r.value.jetStop0l)
    ensures r.Ok? ==> r.value.nbtagsLoose <= CountTrue(r.value.jetStop0l)
    ensures r.Ok? ==> r.value.nLeptonVeto == PassLeptonVeto(ev.electrons, ev.muons, ev.isotracks, false)
    ensures r.Ok? ==> r.value.nIsoTracksLep == CountIskLep(ev.isotracks)
    ensures r.Ok? ==> r.value.nIsoTracksHad == CountIskHad(ev.isotracks)
    ensures r.Ok? ==> r.value.nIsoTracksLep + r.value.nIsoTracksHad <= CountTrue(IsoTrackFlags(ev.isotracks))
    ensures r.Ok? ==> r.value.nVetoElecMuon == PassLeptonVeto(ev.electrons, ev.muons, ev.isotracks, true)
    ensures r.Ok? ==> r.value.nVetoElecMuon <= r.value.nLeptonVeto
    ensures r.Ok? ==> r.value.passDPhiMETMedDM == PassdPhi(GetJetSortedIdx(ev.jets), MedDMdPhiCuts, true)
  {
    match BJetFlags(era, ev.jets)
    case Err(e) => Err(e)
    case Ok(bjets) => Ok(Assemble(ev, bjets))
  }
}

=== FILE: physics_objects.dfy ===
/** The per-event physics-object records read by the two selection modules.
    Only the branches the modules read are kept; every float branch is a
    `real`. */
module PhysicsObjects {

  /** `deltaR(eta1, phi1, eta2, phi2)` of the host framework: an angle helper
      the model treats as an arbitrary real-valued function. */
  type AngleFn = (real, real, real, real) -> real

  /** An entry of the `Jet` collection. */
  datatype Jet = Jet(pt: real, eta: real, phi: real, btagDeepB: real, dPhiMET: real)

  /** An entry of the `GenPart` collection. */
  datatype GenPart = GenPart(pdgId: int, statusFlags: int, pt: real, eta: real, phi: real)

  /** An entry of the `PFcand` collection: a packed PF candidate with its
      isolation sums, its containing jet and its nearest photon. */
  datatype PFCand = PFCand(
    pt: real, eta: real, phi: real, dz: real,
    chiso0p1: real, chiso0p2: real, chiso0p3: real, chiso0p4: real,
    totiso0p1: real, totiso0p2: real, totiso0p3: real, totiso0p4: real,
    nearestTrkDR: real,
    contJetIndex: int,
    nearphopt: real, nearphoeta: real, nearphophi: real)

  /** An `Electron` or `Muon`: only the `Stop0l` selection flag is read. */
  datatype Lepton = Lepton(stop0l: bool)

  /** An `IsoTrack`: its `Stop0l` flag and its PDG identifier. */
  datatype IsoTrack = IsoTrack(pdgId: int, stop0l: bool)
}

=== FILE: tau_analyze.dfy ===
/** The per-event body of `tauMVACompare.analyze`: the candidate loop, the
    truth flags and the branches the module writes. */
module TauAnalyze {
  import opened Common
  import opened PhysicsObjects
  import opened TauSelect
  import opened TauGen
  import opened TauMatch
  import opened TauFeatures

  /** The collections the module reads; `metPt` is the `pt` of the MET object. */
  datatype TauEvent = TauEvent(metPt: real, jets: seq<Jet>, genParts: seq<GenPart>, pfcands: seq<PFCand>)

  /** What one candidate contributes: its score, its `GoodTaus` and
      `FakeTaus` flags, and its `gentaumatch` entry if it has one. */
  datatype CandOutput = CandOutput(mva: real, good: bool, fake: bool, genMatch: Option<bool>)

  /** The output of a candidate that never reaches the classifier. */
  const Unscored: CandOutput := CandOutput(NoScore, false, false, None)

  const MaxMT: real := 100.0

  /** The kinematic and truth-match cuts in front of the transverse mass. */
  predicate PassesCuts(pfc: PFCand, m: MatchState)
  {
    pfc.pt > 10.0 && Abs(pfc.eta) < 2.4 && Abs(pfc.dz) < 0.2 && m.matched
  }

  /** The candidate gets as far as the feature block: it passes the cuts and
      its transverse mass `mtOf(pfc)` is below 100. */
  predicate Reaches(dR: AngleFn, mtOf: PFCand -> real, gen: GenSummary, pfc: PFCand)
  {
    PassesCuts(pfc, MatchGen(dR, pfc, gen.decayProds)) && mtOf(pfc) < MaxMT
  }

  /** The body of the candidate loop. `mtOf` stands for `computeMT` and
      `score` for the classifier. */
  function AnalyzeCandidate(
    dR: AngleFn, mtOf: PFCand -> real, score: Features -> real,
    ev: TauEvent, gen: GenSummary, pfc: PFCand): (r: Result<CandOutput>)
    ensures r.Err? <==> Reaches(dR, mtOf, gen, pfc) && pfc.contJetIndex >= |ev.jets|
    ensures r.Ok? && !Reaches(dR, mtOf, gen, pfc) ==> r.value == Unscored
    ensures r.Ok? && Reaches(dR, mtOf, gen, pfc) ==>
              && r.value.genMatch == Some(gen.nGenHadTaus > 0)
              && ClampFeatures(dR, pfc, ev.jets).Ok?
              && r.value.mva == score(ClampFeatures(dR, pfc, ev.jets).value)
    ensures r.Ok? ==>
              (r.value.good <==>
                 && Reaches(dR, mtOf, gen, pfc)
                 && gen.nGenHadTaus > 0 && gen.nGenLeptons == 0 && gen.nGenTaus == gen.nGenHadTaus
                 && |ev.jets| > 3 && ev.metPt > 150.0
                 && MatchGen(dR, pfc, gen.decayProds).ptMatch > 6.0)
    ensures r.Ok? ==>
              (r.value.fake <==>
                 && Reaches(dR, mtOf, gen, pfc)
                 && !(gen.nGenHadTaus > 0) && gen.nGenLeptons == 0 && gen.nGenTaus == 0
                 && |ev.jets| > 3 && ev.metPt > 150.0)
  {
    var m := MatchGen(dR, pfc, gen.decayProds);
    if !PassesCuts(pfc, m) then Ok(Unscored)
    else
      var mt := mtOf(pfc);
      if !(mt < MaxMT) then Ok(Unscored)
      else
        match ClampFeatures(dR, pfc, ev.jets)
        case Err(e) => Err(e)
        case Ok(f) =>
          var gentaumatch := m.matched && gen.nGenHadTaus > 0;
          var absdz := Abs(pfc.dz);
          var good :=
            && gentaumatch && gen.nGenLeptons == 0 && gen.nGenTaus == gen.nGenHadTaus && gen.nGenHadTaus > 0
            && |ev.jets| > 3 && ev.metPt > 150.0 && mt < MaxMT && f.pt > 10.0 && m.ptMatch > 6.0 && absdz < 0.2;
          var fake :=
            && !gentaumatch && gen.nGenLeptons == 0 && gen.nGenTaus == 0
            && |ev.jets| > 3 && ev.metPt > 150.0 && mt < MaxMT && f.pt > 10.0 && absdz < 0.2;
          Ok(CandOutput(score(f), good, fake, Some(gentaumatch)))
  }

  /** A candidate that reaches the feature block is truth-matched, so the
      event has a charged-hadron decay product and therefore a hadronic tau
      decay product: `gentaumatch` is true, and `FakeTaus`, which needs it
      false and no tau decay product at all, is never set. A `GoodTaus`
      candidate is exactly one that reaches the feature block in an event
      with only hadronic tau decay products, more than three jets and MET
      above 150, and whose matched hadron has pt above 6. */
  lemma CandidateFlags(
    dR: AngleFn, mtOf: PFCand -> real, score: Features -> real,
    ev: TauEvent, gen: GenSummary, pfc: PFCand)
    requires gen == GenScan(ev.genParts)
    requires AnalyzeCandidate(dR, mtOf, score, ev, gen, pfc).Ok?
    ensures !AnalyzeCandidate(dR, mtOf, score, ev, gen, pfc).value.fake
    ensures Reaches(dR, mtOf, gen, pfc) ==>
              AnalyzeCandidate(dR, mtOf, score, ev, gen, pfc).value.genMatch == Some(true)
    ensures AnalyzeCandidate(dR, mtOf, score, ev, gen, pfc).value.good <==>
              && Reaches(dR, mtOf, gen, pfc)
              && gen.nGenTaus == gen.nGenHadTaus > 0
              && |ev.jets| > 3 && ev.metPt > 150.0
              && MatchGen(dR, pfc, gen.decayProds).ptMatch > 6.0
  {
    GenScanNoLeptons(ev.genParts);
    if Reaches(dR, mtOf, gen, pfc) {
      MatchGenSpec(dR, pfc, gen.decayProds);
      DecayProdsGiveHadTau(ev.genParts);
    }
  }

  /** The candidate loop; the first candidate that raises ends the event. */
  function AnalyzeCandidates(
    dR: AngleFn, mtOf: PFCand -> real, score: Features -> real,
    ev: TauEvent, gen: GenSummary, cands: seq<PFCand>): (r: Result<seq<CandOutput>>)
    ensures r.Err? <==> exists i :: 0 <= i < |cands| && AnalyzeCandidate(dR, mtOf, score, ev, gen, cands[i]).Err?
    ensures r.Ok? ==> |r.value| == |cands|
    ensures r.Ok? ==> forall i :: 0 <= i < |cands| ==>
              AnalyzeCandidate(dR, mtOf, score, ev, gen, cands[i]) == Ok(r.value[i])
  {
    if |cands| == 0 then Ok([])
    else
      var init := cands[..|cands| - 1];
      match AnalyzeCandidates(dR, mtOf, score, ev, gen, init)
      case Err(e) => Err(e)
      case Ok(outs) =>
        match AnalyzeCandidate(dR, mtOf, score, ev, gen, cands[|cands| - 1])
        case Err(e) => Err(e)
        case Ok(o) => Ok(outs + [o])
  }

  /** The branches written for one event. `tauMVA[k]` and `nTauMVA[k]` are
      `TauMVA_Stop0l_XX` and `nTauMVA_XX` for the cut `Thresholds[k]`. */
  datatype TauOutput = TauOutput(
    nGenHadTaus: int,
    nGenTaus: int,
    nGenChHads: nat,
    nGenChHadsAcc: int,
    nGenLeptons: int,
    taumva: seq<real>,
    tauMVA: seq<seq<bool>>,
    nTauMVA: seq<nat>,
    gentaumatch: seq<bool>,
    goodTaus: seq<bool>,
    nGoodTaus: nat,
    fakeTaus: seq<bool>,
    nFakeTaus: nat)

  /** `gentaumatch_`: the entries of the candidates that have one, in order. */
  function GenMatchList(outs: seq<CandOutput>): (r: seq<bool>)
    ensures |r| == CountTrue(HasGenMatch(outs))
    ensures forall j :: 0 <= j < |r| ==> exists i :: 0 <= i < |outs| && outs[i].genMatch == Some(r[j])
  {
    if |outs| == 0 then []
    else
      var init := outs[..|outs| - 1];
      var last := outs[|outs| - 1];
      assert HasGenMatch(outs)[..|outs| - 1] == HasGenMatch(init);
      GenMatchList(init) + (if last.genMatch.Some? then [last.genMatch.value] else [])
  }

  /** One flag per candidate: it has a `gentaumatch` entry. */
  function HasGenMatch(outs: seq<CandOutput>): (r: seq<bool>)
    ensures |r| == |outs|
  {
    seq(|outs|, i requires 0 <= i < |outs| => outs[i].genMatch.Some?)
  }

  function Scores(outs: seq<CandOutput>): (r: seq<real>)
    ensures |r| == |outs|
  {
    seq(|outs|, i requires 0 <= i < |outs| => outs[i].mva)
  }

  function GoodFlags(outs: seq<CandOutput>): (r: seq<bool>)
    ensures |r| == |outs|
  {
    seq(|outs|, i requires 0 <= i < |outs| => outs[i].good)
  }

  function FakeFlags(outs: seq<CandOutput>): (r: seq<bool>)
    ensures |r| == |outs|
  {
    seq(|outs|, i requires 0 <= i < |outs| => outs[i].fake)
  }

  /** The six threshold selections of the score list. */
  function WorkingPoints(mva: seq<real>): (r: seq<seq<bool>>)
    ensures |r| == |Thresholds|
  {
    seq(|Thresholds|, k requires 0 <= k < |Thresholds| => SelTauMVA(mva, Thresholds[k]))
  }

  function Counts(sels: seq<seq<bool>>): (r: seq<nat>)
    ensures |r| == |sels|
  {
    seq(|sels|, k requires 0 <= k < |sels| => CountTrue(sels[k]))
  }

  /** The branches of an event from the scan summary and the candidate outputs. */
  function Assemble(gen: GenSummary, outs: seq<CandOutput>): TauOutput
  {
    var mva := Scores(outs);
    var sels := WorkingPoints(mva);
    TauOutput(
      gen.nGenHadTaus, gen.nGenTaus, gen.nGenChHads(), gen.nGenChHadsAcc, gen.nGenLeptons,
      mva, sels, Counts(sels),
      GenMatchList(outs),
      GoodFlags(outs), CountTrue(GoodFlags(outs)),
      FakeFlags(outs), CountTrue(FakeFlags(outs)))
  }

  /** `tauMVACompare.analyze` for one event. */
  function Analyze(dR: AngleFn, mtOf: PFCand -> real, score: Features -> real, ev: TauEvent): (r: Result<TauOutput>)
    ensures r.Err? <==>
              exists i :: 0 <= i < |ev.pfcands| &&
                Reaches(dR, mtOf, GenScan(ev.genParts), ev.pfcands[i]) && ev.pfcands[i].contJetIndex >= |ev.jets|
  {
    var gen := GenScan(ev.genParts);
    match AnalyzeCandidates(dR, mtOf, score, ev, gen, ev.pfcands)
    case Err(e) => Err(e)
    case Ok(outs) => Ok(Assemble(gen, outs))
  }

  /** One flag per candidate: it reaches the feature block. */
  function ReachFlags(dR: AngleFn, mtOf: PFCand -> real, ev: TauEvent): (r: seq<bool>)
    ensures |r| == |ev.pfcands|
  {
    seq(|ev.pfcands|, i requires 0 <= i < |ev.pfcands| => Reaches(dR, mtOf, GenScan(ev.genParts), ev.pfcands[i]))
  }

  /** The candidate outputs of an event that does not raise. */
  function Outputs(dR: AngleFn, mtOf: PFCand -> real, score: Features -> real, ev: TauEvent): seq<CandOutput>
    requires Analyze(dR, mtOf, score, ev).Ok?
  {
    AnalyzeCandidates(dR, mtOf, score, ev, GenScan(ev.genParts), ev.pfcands).value
  }

  /** Branch lengths: one score, one flag per working point, one `GoodTaus`
      and one `FakeTaus` flag per candidate, and one `gentaumatch` entry per
      candidate that reaches the feature block; `nGoodTaus` and `nFakeTaus`
      count the flags. */
  lemma AnalyzeShape(dR: AngleFn, mtOf: PFCand -> real, score: Features -> real, ev: TauEvent)
    requires Analyze(dR, mtOf, score, ev).Ok?
    ensures var out := Analyze(dR, mtOf, score, ev).value;
      && |out.taumva| == |ev.pfcands|
      && |out.goodTaus| == |ev.pfcands|
      && |out.fakeTaus| == |ev.pfcands|
      && |out.tauMVA| == |Thresholds| == |out.nTauMVA|
      && (forall k :: 0 <= k < |Thresholds| ==> |out.tauMVA[k]| == |ev.pfcands|)
      && |out.gentaumatch| == CountTrue(ReachFlags(dR, mtOf, ev))
      && |out.gentaumatch| <= |ev.pfcands|
      && out.nGoodTaus == CountTrue(out.goodTaus)
      && out.nFakeTaus == CountTrue(out.fakeTaus)
  {
    var gen := GenScan(ev.genParts);
    var outs := Outputs(dR, mtOf, score, ev);
    assert HasGenMatch(outs) == ReachFlags(dR, mtOf, ev);
  }

  /** A candidate that does not reach the feature block keeps the score
      -10 and so fails every working point; every `gentaumatch` entry that
      is written is true. */
  lemma AnalyzeUnscored(dR: AngleFn, mtOf: PFCand -> real, score: Features -> real, ev: TauEvent)
    requires Analyze(dR, mtOf, score, ev).Ok?
    ensures var out := Analyze(dR, mtOf, score, ev).value;
      forall i :: 0 <= i < |ev.pfcands| && !Reaches(dR, mtOf, GenScan(ev.genParts), ev.pfcands[i]) ==>
        && out.taumva[i] == NoScore
        && !out.goodTaus[i]
        && forall k :: 0 <= k < |Thresholds| ==> !out.tauMVA[k][i]
    ensures forall j :: 0 <= j < |Analyze(dR, mtOf, score, ev).value.gentaumatch| ==>
              Analyze(dR, mtOf, score, ev).value.gentaumatch[j]
  {
    var gen := GenScan(ev.genParts);
    var outs := Outputs(dR, mtOf, score, ev);
    forall i | 0 <= i < |outs|
      ensures outs[i].genMatch != Some(false)
    {
      CandidateFlags(dR, mtOf, score, ev, gen, ev.pfcands[i]);
    }
    ThresholdsAscending();
  }

  /** A candidate that reaches the feature block is scored on its clamped
      features, which lie in the classifier's range; its `GoodTaus` flag is
      set iff the event has only hadronic tau decay products, more than three
      jets and MET above 150, and its matched hadron has pt above 6. */
  lemma AnalyzeScored(dR: AngleFn, mtOf: PFCand -> real, score: Features -> real, ev: TauEvent)
    requires Analyze(dR, mtOf, score, ev).Ok?
    ensures var out := Analyze(dR, mtOf, score, ev).value;
      forall i :: 0 <= i < |ev.pfcands| && Reaches(dR, mtOf, GenScan(ev.genParts), ev.pfcands[i]) ==>
        && ClampFeatures(dR, ev.pfcands[i], ev.jets).Ok?
        && InRange(ClampFeatures(dR, ev.pfcands[i], ev.jets).value)
        && out.taumva[i] == score(ClampFeatures(dR, ev.pfcands[i], ev.jets).value)
        && (out.goodTaus[i] <==>
              && out.nGenTaus == out.nGenHadTaus > 0
              && |ev.jets| > 3 && ev.metPt > 150.0
              && MatchGen(dR, ev.pfcands[i], GenScan(ev.genParts).decayProds).ptMatch > 6.0)
  {
    var gen := GenScan(ev.genParts);
    var outs := Outputs(dR, mtOf, score, ev);
    forall i | 0 <= i < |outs|
      ensures outs[i].good <==>
                && Reaches(dR, mtOf, gen, ev.pfcands[i])
                && gen.nGenTaus == gen.nGenHadTaus > 0
                && |ev.jets| > 3 && ev.metPt > 150.0
                && MatchGen(dR, ev.pfcands[i], gen.decayProds).ptMatch > 6.0
    {
      CandidateFlags(dR, mtOf, score, ev, gen, ev.pfcands[i]);
    }
  }

  /** `FakeTaus` is never set, so `nFakeTaus` is zero and no candidate is
      both a good and a fake tau. */
  lemma AnalyzeNoFakes(dR: AngleFn, mtOf: PFCand -> real, score: Features -> real, ev: TauEvent)
    requires Analyze(dR, mtOf, score, ev).Ok?
    ensures var out := Analyze(dR, mtOf, score, ev).value;
      && (forall i :: 0 <= i < |out.fakeTaus| ==> !out.fakeTaus[i])
      && out.nFakeTaus == 0
      && (forall i :: 0 <= i < |ev.pfcands| ==> !(out.goodTaus[i] && out.fakeTaus[i]))
  {
    var gen := GenScan(ev.genParts);
    var outs := Outputs(dR, mtOf, score, ev);
    forall i | 0 <= i < |outs|
      ensures !outs[i].fake
    {
      CandidateFlags(dR, mtOf, score, ev, gen, ev.pfcands[i]);
    }
    CountTrueNone(FakeFlags(outs));
  }

  /** `TauMVA_Stop0l_XX` is the selection of the score list at the cut XX
      and `nTauMVA_XX` its count; each working point selects a subset of the
      looser ones, so nTauMVA_75 <= nTauMVA_74 <= nTauMVA_73 <= nTauMVA_71 <= nTauMVA_70 <= nTauMVA_68. */
  lemma AnalyzeWorkingPointsNested(dR: AngleFn, mtOf: PFCand -> real, score: Features -> real, ev: TauEvent)
    requires Analyze(dR, mtOf, score, ev).Ok?
    ensures var out := Analyze(dR, mtOf, score, ev).value;
      forall k :: 0 <= k < |Thresholds| ==>
        && out.tauMVA[k] == SelTauMVA(out.taumva, Thresholds[k])
        && out.nTauMVA[k] == CountTrue(out.tauMVA[k])
    ensures var out := Analyze(dR, mtOf, score, ev).value;
      forall k :: 0 <= k < |Thresholds| - 1 ==>
        && out.nTauMVA[k + 1] <= out.nTauMVA[k]
        && forall i :: 0 <= i < |ev.pfcands| && out.tauMVA[k + 1][i] ==> out.tauMVA[k][i]
  {
    var out := Analyze(dR, mtOf, score, ev).value;
    ThresholdsAscending();
    forall k | 0 <= k < |Thresholds| - 1
      ensures out.nTauMVA[k + 1] <= out.nTauMVA[k]
      ensures forall i :: 0 <= i < |ev.pfcands| && out.tauMVA[k + 1][i] ==> out.tauMVA[k][i]
    {
      SelTauMVANested(out.taumva, Thresholds[k], Thresholds[k + 1]);
    }
  }

  /** The generator counters written out: `nGenTaus`, `nGenChHads` and
      `nGenChHadsAcc` count the tau decay products, the charged-hadron ones
      and those of them in the acceptance; `nGenHadTaus` leaves out the
      electrons and muons; `nGenLeptons` is always zero; and the counters
      are nested. */
  lemma AnalyzeGenCounts(dR: AngleFn, mtOf: PFCand -> real, score: Features -> real, ev: TauEvent)
    requires Analyze(dR, mtOf, score, ev).Ok?
    ensures var out := Analyze(dR, mtOf, score, ev).value;
      && out.nGenLeptons == 0
      && 0 <= out.nGenChHadsAcc <= out.nGenChHads <= out.nGenHadTaus <= out.nGenTaus
      && out.nGenHadTaus == out.nGenTaus - CountTrue(LeptonicFlags(ev.genParts))
      && out.nGenTaus == CountTrue(TauProductFlags(ev.genParts))
      && out.nGenChHads == CountTrue(Flags(ev.genParts, IsChargedHadronProduct))
      && out.nGenChHadsAcc == CountTrue(Flags(ev.genParts, IsChargedHadronProductInAcc))
  {
    GenScanNoLeptons(ev.genParts);
    GenScanNested(ev.genParts);
    GenScanCounts(ev.genParts);
    GenScanDecayProds(ev.genParts);
    GenScanAcc(ev.genParts);
  }
}

=== FILE: tau_features.dfy ===
/** The thirteen classifier inputs of a tau candidate and their clamping
    (`tauMVACompare.analyze`, feature block). */
module TauFeatures {
  import opened Common
  import opened PhysicsObjects

  /** The `bdt_vars` of the classifier, in its order. */
  datatype Features = Features(
    pt: real, abseta: real,
    chiso0p1: real, chiso0p2: real, chiso0p3: real, chiso0p4: real,
    totiso0p1: real, totiso0p2: real, totiso0p3: real, totiso0p4: real,
    neartrkdr: real, contjetdr: real, contjetcsv: real)

  const MaxPt: real := 300.0
  const MaxAbsEta: real := 2.4
  const MaxIso: real := 700.0
  const MaxJetDR: real := 0.4

  /** The ranges the clamping guarantees. */
  predicate InRange(f: Features)
  {
    && f.pt <= MaxPt
    && 0.0 <= f.abseta <= MaxAbsEta
    && f.chiso0p1 <= MaxIso && f.chiso0p2 <= MaxIso && f.chiso0p3 <= MaxIso && f.chiso0p4 <= MaxIso
    && f.totiso0p1 <= MaxIso && f.totiso0p2 <= MaxIso && f.totiso0p3 <= MaxIso && f.totiso0p4 <= MaxIso
    && 0.0 <= f.contjetdr <= MaxJetDR
    && f.contjetcsv >= 0.0
  }

  /** Clamping `x` from above to `bound` leaves it alone when it is within
      range and otherwise replaces it by the bound. */
  predicate ClampedTo(x: real, bound: real, y: real)
  {
    if x <= bound then y == x else y == bound
  }

  /** Every candidate quantity that is already in range reaches the classifier unchanged. */
  predicate KeepsInRange(pfc: PFCand, f: Features)
  {
    && ClampedTo(pfc.pt, MaxPt, f.pt)
    && ClampedTo(Abs(pfc.eta), MaxAbsEta, f.abseta)
    && ClampedTo(pfc.chiso0p1, MaxIso, f.chiso0p1) && ClampedTo(pfc.chiso0p2, MaxIso, f.chiso0p2)
    && ClampedTo(pfc.chiso0p3, MaxIso, f.chiso0p3) && ClampedTo(pfc.chiso0p4, MaxIso, f.chiso0p4)
    && ClampedTo(pfc.totiso0p1, MaxIso, f.totiso0p1) && ClampedTo(pfc.totiso0p2, MaxIso, f.totiso0p2)
    && ClampedTo(pfc.totiso0p3, MaxIso, f.totiso0p3) && ClampedTo(pfc.totiso0p4, MaxIso, f.totiso0p4)
    && f.neartrkdr == pfc.nearestTrkDR
  }

  /** `jetmatch`: the jet containing the candidate when its index is valid and
      it has pt of at least 20 and |eta| below 2.4. Indexing past the end of
      the jet collection raises an IndexError. */
  function ContainingJet(pfc: PFCand, jets: seq<Jet>): (r: Result<Option<Jet>>)
    ensures r.Err? <==> pfc.contJetIndex >= |jets|
    ensures r.Ok? && r.value.Some? ==>
              && 0 <= pfc.contJetIndex < |jets|
              && r.value.value == jets[pfc.contJetIndex]
              && r.value.value.pt >= 20.0
              && Abs(r.value.value.eta) < 2.4
    ensures r.Ok? && r.value.None? ==>
              pfc.contJetIndex < 0 || jets[pfc.contJetIndex].pt < 20.0 || Abs(jets[pfc.contJetIndex].eta) >= 2.4
  {
    if !(pfc.contJetIndex > -1) then Ok(None)
    else if pfc.contJetIndex >= |jets| then Err(JetIndexOutOfRange(pfc.contJetIndex, |jets|))
    else
      var jet := jets[pfc.contJetIndex];
      if jet.pt >= 20.0 && Abs(jet.eta) < 2.4 then Ok(Some(jet)) else Ok(None)
  }

  /** The classifier inputs of a candidate, clamped into range. */
  function ClampFeatures(dR: AngleFn, pfc: PFCand, jets: seq<Jet>): (r: Result<Features>)
    ensures r.Err? <==> pfc.contJetIndex >= |jets|
    ensures r.Ok? ==> InRange(r.value) && KeepsInRange(pfc, r.value)
    ensures r.Ok? && ContainingJet(pfc, jets).value.None? ==>
              r.value.contjetdr == 0.0 && r.value.contjetcsv == 0.0
    ensures r.Ok? && ContainingJet(pfc, jets).value.Some? ==>
              (r.value.contjetcsv == ContainingJet(pfc, jets).value.value.btagDeepB ||
               (ContainingJet(pfc, jets).value.value.btagDeepB < 0.0 && r.value.contjetcsv == 0.0))
    ensures r.Ok? && ContainingJet(pfc, jets).value.Some? ==>
              var jet := ContainingJet(pfc, jets).value.value;
              var d := dR(jet.eta, jet.phi, pfc.eta, pfc.phi);
              && (0.0 <= d <= MaxJetDR ==> r.value.contjetdr == d)
              && (d > MaxJetDR ==> r.value.contjetdr == MaxJetDR)
              && (d < 0.0 ==> r.value.contjetdr == 0.0)
  {
    match ContainingJet(pfc, jets)
    case Err(e) => Err(e)
    case Ok(jet) =>
      var jetdr := if jet.Some? then dR(jet.value.eta, jet.value.phi, pfc.eta, pfc.phi) else -1.0;
      var jetcsv := if jet.Some? then jet.value.btagDeepB else -1.0;
      var contjetdr := Min(MaxJetDR, jetdr);
      var contjetdr := if contjetdr < 0.0 then 0.0 else contjetdr;
      var contjetcsv := if jetcsv < 0.0 then 0.0 else jetcsv;
      Ok(Features(
           Min(pfc.pt, MaxPt), Min(Abs(pfc.eta), MaxAbsEta),
           Min(pfc.chiso0p1, MaxIso), Min(pfc.chiso0p2, MaxIso),
           Min(pfc.chiso0p3, MaxIso), Min(pfc.chiso0p4, MaxIso),
           Min(pfc.totiso0p1, MaxIso), Min(pfc.totiso0p2, MaxIso),
           Min(pfc.totiso0p3, MaxIso), Min(pfc.totiso0p4, MaxIso),
           pfc.nearestTrkDR, contjetdr, contjetcsv))
  }
}

=== FILE: tau_gen.dfy ===
/** The generator-level scan at the top of `tauMVACompare.analyze`: counts of
    tau decay products and the list of charged-hadron decay products that
    reconstructed candidates are later matched against. */
module TauGen {
  import opened Common
  import opened PhysicsObjects

  // PDG identifiers the scan tests for.
  const Electron: int := 11
  const NuE: int := 12
  const Muon: int := 13
  const NuMu: int := 14
  const PiPlus: int := 211
  const KPlus: int := 321

  /** `isA(particleID, p)`: the PDG identifier is the particle or its antiparticle. */
  function IsA(particleId: int, pdgId: int): (r: bool)
    ensures r ==> pdgId == particleId || pdgId == -particleId
    ensures particleId >= 0 && (pdgId == particleId || pdgId == -particleId) ==> r
  {
    AbsInt(pdgId) == particleId
  }

  /** `statusFlags & 4`: bit 2 (isTauDecayProduct) of the two's-complement
      flag word. Division by a positive number rounds down in Dafny, as the
      two's-complement shift does, so negative words are read correctly too. */
  predicate IsTauDecayProduct(p: GenPart)
  {
    (p.statusFlags / 4) % 2 == 1
  }

  predicate IsLightLepton(p: GenPart)
  {
    IsA(Electron, p.pdgId) || IsA(Muon, p.pdgId)
  }

  /** A charged pion or kaon (the neutrino test in front is redundant). */
  predicate IsChargedHadron(p: GenPart)
  {
    !IsA(NuE, p.pdgId) && !IsA(NuMu, p.pdgId) && (IsA(PiPlus, p.pdgId) || IsA(KPlus, p.pdgId))
  }

  predicate InAcceptance(p: GenPart)
  {
    p.pt > 10.0 && Abs(p.eta) < 2.4
  }

  /** The counters of the scan (Python integers) and the decay-product list
      `taudecayprods`. */
  datatype GenSummary = GenSummary(
    nGenTaus: int,
    nGenHadTaus: int,
    nGenLeptons: int,
    nGenChHadsAcc: int,
    decayProds: seq<GenPart>)
  {
    /** `nGenChHads = len(taudecayprods)`. */
    function nGenChHads(): nat
    {
      |decayProds|
    }
  }

  const EmptySummary: GenSummary := GenSummary(0, 0, 0, 0, [])

  /** One pass of the loop body, in the source's order: a leptonic decay
      product hits `continue` before either of the two later increments. */
  function GenStep(s: GenSummary, p: GenPart): GenSummary
  {
    if !IsTauDecayProduct(p) then s
    else
      var counted := s.(nGenTaus := s.nGenTaus + 1);
      if IsLightLepton(p) then counted
      else
        var withProd :=
          if IsChargedHadron(p) then
            counted.(decayProds := counted.decayProds + [p],
                     nGenChHadsAcc := counted.nGenChHadsAcc + (if InAcceptance(p) then 1 else 0))
          else counted;
        var had := withProd.(nGenHadTaus := withProd.nGenHadTaus + 1);
        if IsLightLepton(p) then had.(nGenLeptons := had.nGenLeptons + 1) else had
  }

  /** The whole loop over `GenPart`. */
  function GenScan(ps: seq<GenPart>): GenSummary
  {
    if |ps| == 0 then EmptySummary
    else GenStep(GenScan(ps[..|ps| - 1]), ps[|ps| - 1])
  }

  /** One flag per generator particle: a tau decay product. */
  function TauProductFlags(ps: seq<GenPart>): (r: seq<bool>)
    ensures |r| == |ps|
  {
    seq(|ps|, i requires 0 <= i < |ps| => IsTauDecayProduct(ps[i]))
  }

  /** One flag per generator particle: a tau decay product that is an electron or a muon. */
  function LeptonicFlags(ps: seq<GenPart>): (r: seq<bool>)
    ensures |r| == |ps|
  {
    seq(|ps|, i requires 0 <= i < |ps| => IsTauDecayProduct(ps[i]) && IsLightLepton(ps[i]))
  }

  /** `nGenLeptons` is never incremented: the only path to the increment
      has already excluded electrons and muons. */
  lemma {:induction false} GenScanNoLeptons(ps: seq<GenPart>)
    ensures GenScan(ps).nGenLeptons == 0
  {
    if |ps| > 0 {
      GenScanNoLeptons(ps[..|ps| - 1]);
    }
  }

  /** `nGenTaus` counts the tau decay products, and `nGenHadTaus` is that
      count less the electrons and muons among them. */
  lemma {:induction false} GenScanCounts(ps: seq<GenPart>)
    ensures GenScan(ps).nGenTaus == CountTrue(TauProductFlags(ps))
    ensures GenScan(ps).nGenHadTaus == GenScan(ps).nGenTaus - CountTrue(LeptonicFlags(ps))
  {
    if |ps| > 0 {
      var init := ps[..|ps| - 1];
      GenScanCounts(init);
      assert TauProductFlags(ps)[..|ps| - 1] == TauProductFlags(init);
      assert LeptonicFlags(ps)[..|ps| - 1] == LeptonicFlags(init);
    }
  }

  /** The counters are nested: charged hadrons in acceptance, charged
      hadrons, hadronic decay products, all decay products. */
  lemma {:induction false} GenScanNested(ps: seq<GenPart>)
    ensures 0 <= GenScan(ps).nGenChHadsAcc <= GenScan(ps).nGenChHads()
    ensures GenScan(ps).nGenChHads() <= GenScan(ps).nGenHadTaus
    ensures GenScan(ps).nGenHadTaus <= GenScan(ps).nGenTaus
  {
    if |ps| > 0 {
      GenScanNested(ps[..|ps| - 1]);
    }
  }

  /** A tau decay product that is a charged pion or kaon. */
  predicate IsChargedHadronProduct(p: GenPart)
  {
    IsTauDecayProduct(p) && IsChargedHadron(p)
  }

  /** `taudecayprods` is the list of tau decay products that are charged
      pions or kaons, in generator order and with their multiplicity, so
      `nGenChHads` is their number. */
  lemma {:induction false} GenScanDecayProds(ps: seq<GenPart>)
    ensures GenScan(ps).decayProds == Filter(ps, IsChargedHadronProduct)
    ensures GenScan(ps).nGenChHads() == CountTrue(Flags(ps, IsChargedHadronProduct))
    ensures |GenScan(ps).decayProds| <= |ps|
    ensures forall g :: g in GenScan(ps).decayProds <==> g in ps && IsTauDecayProduct(g) && IsChargedHadron(g)
  {
    if |ps| > 0 {
      GenScanDecayProds(ps[..|ps| - 1]);
    }
  }

  /** A charged-hadron tau decay product with pt above 10 and |eta| below 2.4. */
  predicate IsChargedHadronProductInAcc(p: GenPart)
  {
    IsChargedHadronProduct(p) && InAcceptance(p)
  }

  /** `nGenChHadsAcc` counts the charged-hadron tau decay products in the
      acceptance. */
  lemma {:induction false} GenScanAcc(ps: seq<GenPart>)
    ensures GenScan(ps).nGenChHadsAcc == CountTrue(Flags(ps, IsChargedHadronProductInAcc))
  {
    if |ps| > 0 {
      var init := ps[..|ps| - 1];
      var last := ps[|ps| - 1];
      GenScanAcc(init);
      assert Flags(ps, IsChargedHadronProductInAcc)[..|ps| - 1] == Flags(init, IsChargedHadronProductInAcc);
      assert IsChargedHadron(last) ==> !IsLightLepton(last);
    }
  }

  /** A non-empty decay-product list means at least one hadronic tau decay product. */
  lemma DecayProdsGiveHadTau(ps: seq<GenPart>)
    requires |GenScan(ps).decayProds| > 0
    ensures GenScan(ps).nGenHadTaus >= 1
    ensures GenScan(ps).nGenTaus >= 1
  {
    GenScanNested(ps);
  }
}

=== FILE: tau_match.dfy ===
/** Matching of one reconstructed PF candidate to the generator-level charged
    hadrons (the inner loop of `tauMVACompare.analyze`): a running best score
    `tmpDr` that starts at 0.05 and is replaced by any strictly better score
    of a generator hadron whose relative pt difference is below 0.4. */
module TauMatch {
  import opened Common
  import opened PhysicsObjects

  /** The loop state: `match`, `tmpDr`, `ptmatch` and `etamatch`. */
  datatype MatchState = MatchState(matched: bool, bestDr: real, ptMatch: real, etaMatch: real)

  const InitialMatch: MatchState := MatchState(false, 0.05, -1.0, -10.0)

  /** Weight `kpt` of the relative pt difference in the score. */
  const Kpt: real := 0.01
  const MaxRelPtDiff: real := 0.4

  /** `dpt`: relative pt difference, zero when the generator pt is at most 0.5. */
  function RelPtDiff(pfc: PFCand, g: GenPart): (d: real)
    ensures d >= 0.0
    ensures g.pt <= 0.5 ==> d == 0.0
  {
    if g.pt > 0.5 then Abs(1.0 - pfc.pt / g.pt) else 0.0
  }

  /** The matching score `deltaR + kpt * dpt`. */
  function MatchScore(dR: AngleFn, pfc: PFCand, g: GenPart): real
  {
    dR(pfc.eta, pfc.phi, g.eta, g.phi) + Kpt * RelPtDiff(pfc, g)
  }

  predicate PtCompatible(pfc: PFCand, g: GenPart)
  {
    RelPtDiff(pfc, g) < MaxRelPtDiff
  }

  /** One pass of the inner loop body. */
  function MatchStep(dR: AngleFn, pfc: PFCand, st: MatchState, g: GenPart): MatchState
  {
    if MatchScore(dR, pfc, g) < st.bestDr && PtCompatible(pfc, g) then
      MatchState(true, MatchScore(dR, pfc, g), g.pt, g.eta)
    else st
  }

  /** The inner loop run from state `st` over the hadrons `gs`, in order. */
  function MatchFrom(dR: AngleFn, pfc: PFCand, st: MatchState, gs: seq<GenPart>): MatchState
    decreases |gs|
  {
    if |gs| == 0 then st
    else MatchFrom(dR, pfc, MatchStep(dR, pfc, st, gs[0]), gs[1..])
  }

  /** The inner loop as the source runs it, from the initial state. */
  function MatchGen(dR: AngleFn, pfc: PFCand, gs: seq<GenPart>): MatchState
  {
    MatchFrom(dR, pfc, InitialMatch, gs)
  }

  /** What the loop computes from any starting state: the best score never
      rises and ends at or below the score of every pt-compatible hadron;
      the state is marked matched iff it was already, or some pt-compatible
      hadron beats the starting score; and a changed state records the
      score, pt and eta of the first hadron with the least score. */
  lemma {:induction false} MatchFromSpec(dR: AngleFn, pfc: PFCand, st: MatchState, gs: seq<GenPart>)
    ensures MatchFrom(dR, pfc, st, gs).bestDr <= st.bestDr
    ensures forall i :: 0 <= i < |gs| && PtCompatible(pfc, gs[i]) ==>
              MatchFrom(dR, pfc, st, gs).bestDr <= MatchScore(dR, pfc, gs[i])
    ensures MatchFrom(dR, pfc, st, gs).matched <==>
              st.matched ||
              exists i :: 0 <= i < |gs| && PtCompatible(pfc, gs[i]) && MatchScore(dR, pfc, gs[i]) < st.bestDr
    ensures MatchFrom(dR, pfc, st, gs) == st ||
              exists i :: RecordsFirst(dR, pfc, MatchFrom(dR, pfc, st, gs), gs, i, st.bestDr)
    decreases |gs|
  {
    if |gs| > 0 {
      var st' := MatchStep(dR, pfc, st, gs[0]);
      var rest := gs[1..];
      var r := MatchFrom(dR, pfc, st', rest);
      MatchFromSpec(dR, pfc, st', rest);
      assert r == MatchFrom(dR, pfc, st, gs);
      forall i | 0 <= i < |rest|
        ensures rest[i] == gs[i + 1]
      {
      }
      if r.matched && !st.matched {
        if st'.matched {
          assert PtCompatible(pfc, gs[0]) && MatchScore(dR, pfc, gs[0]) < st.bestDr;
        } else {
          var j :| 0 <= j < |rest| && PtCompatible(pfc, rest[j]) && MatchScore(dR, pfc, rest[j]) < st'.bestDr;
          assert PtCompatible(pfc, gs[j + 1]);
        }
      }
      if exists i :: 0 <= i < |gs| && PtCompatible(pfc, gs[i]) && MatchScore(dR, pfc, gs[i]) < st.bestDr {
        var i :| 0 <= i < |gs| && PtCompatible(pfc, gs[i]) && MatchScore(dR, pfc, gs[i]) < st.bestDr;
        if i > 0 && st' == st {
          assert PtCompatible(pfc, rest[i - 1]) && MatchScore(dR, pfc, rest[i - 1]) < st'.bestDr;
        }
      }
      if r != st {
        if r == st' {
          assert RecordsFirst(dR, pfc, r, gs, 0, st.bestDr);
        } else {
          var j :| RecordsFirst(dR, pfc, r, rest, j, st'.bestDr);
          assert PtCompatible(pfc, gs[0]) ==> r.bestDr < MatchScore(dR, pfc, gs[0]);
          assert RecordsFirst(dR, pfc, r, gs, j + 1, st.bestDr);
        }
      }
    }
  }

  /** The state `r` is a match recorded for hadron `g`, which beat the score `bound`. */
  predicate Records(dR: AngleFn, pfc: PFCand, r: MatchState, g: GenPart, bound: real)
  {
    && r.matched
    && PtCompatible(pfc, g)
    && r.bestDr == MatchScore(dR, pfc, g)
    && r.bestDr < bound
    && r.ptMatch == g.pt
    && r.etaMatch == g.eta
  }

  /** `r` records the hadron `gs[i]`, which beat `bound`, and every earlier
      pt-compatible hadron scored strictly worse: `gs[i]` is the first hadron
      with the least score, the one the strict comparison keeps. */
  predicate RecordsFirst(dR: AngleFn, pfc: PFCand, r: MatchState, gs: seq<GenPart>, i: int, bound: real)
  {
    && 0 <= i < |gs|
    && Records(dR, pfc, r, gs[i], bound)
    && forall j :: 0 <= j < i && PtCompatible(pfc, gs[j]) ==> MatchScore(dR, pfc, gs[j]) > r.bestDr
  }

  /** The source's loop: `match` is set iff some pt-compatible hadron scores
      below 0.05, in which case `tmpDr` is the least such score and the
      recorded pt and eta are those of the first hadron attaining it; without a match the state is
      the initial one, and there is never a match without hadrons. */
  lemma MatchGenSpec(dR: AngleFn, pfc: PFCand, gs: seq<GenPart>)
    ensures MatchGen(dR, pfc, gs).matched <==>
              exists i :: 0 <= i < |gs| && PtCompatible(pfc, gs[i]) && MatchScore(dR, pfc, gs[i]) < InitialMatch.bestDr
    ensures MatchGen(dR, pfc, gs).matched ==>
              exists i :: RecordsFirst(dR, pfc, MatchGen(dR, pfc, gs), gs, i, InitialMatch.bestDr)
    ensures forall i :: 0 <= i < |gs| && PtCompatible(pfc, gs[i]) ==>
              MatchGen(dR, pfc, gs).bestDr <= MatchScore(dR, pfc, gs[i])
    ensures !MatchGen(dR, pfc, gs).matched ==> MatchGen(dR, pfc, gs) == InitialMatch
    ensures |gs| == 0 ==> !MatchGen(dR, pfc, gs).matched
  {
    MatchFromSpec(dR, pfc, InitialMatch, gs);
  }

  /** Running the loop over `a` and then over `b` is running it over `a + b`. */
  lemma {:induction false} MatchFromAppend(dR: AngleFn, pfc: PFCand, st: MatchState, a: seq<GenPart>, b: seq<GenPart>)
    ensures MatchFrom(dR, pfc, st, a + b) == MatchFrom(dR, pfc, MatchFrom(dR, pfc, st, a), b)
    decreases |a|
  {
    if |a| == 0 {
      assert a + b == b;
    } else {
      assert (a + b)[0] == a[0];
      assert (a + b)[1..] == a[1..] + b;
      MatchFromAppend(dR, pfc, MatchStep(dR, pfc, st, a[0]), a[1..], b);
    }
  }

  /** `tmpDr` never increases from one iteration to a later one. */
  lemma BestDrNonIncreasing(dR: AngleFn, pfc: PFCand, gs: seq<GenPart>, k: nat, k': nat)
    requires k <= k' <= |gs|
    ensures MatchGen(dR, pfc, gs[..k']).bestDr <= MatchGen(dR, pfc, gs[..k]).bestDr
  {
    assert gs[..k'] == gs[..k] + gs[k..k'];
    MatchFromAppend(dR, pfc, InitialMatch, gs[..k], gs[k..k']);
    MatchFromSpec(dR, pfc, MatchGen(dR, pfc, gs[..k]), gs[k..k']);
  }
}

=== FILE: tau_photon.dfy ===
/** `tauMVACompare.getNearPhotonIndex`: the search for the photon next to a
    candidate, used for the candidate's transverse mass. */
module TauPhoton {
  import opened PhysicsObjects

  const MinPhotonPt: real := 0.5
  const MaxPhotonDR: real := 0.2

  /** A candidate that survives both `continue` filters of the search. */
  predicate IsNearPhoton(dR: AngleFn, pfc: PFCand, c: PFCand)
  {
    !(c.nearphopt < MinPhotonPt) && !(dR(c.eta, c.phi, pfc.nearphoeta, pfc.nearphophi) > MaxPhotonDR)
  }

  /** The loop state: `photonInd` and `maxPhotonPT`. */
  datatype Search = Search(ind: int, maxPhotonPt: real)

  const NoPhoton: Search := Search(-1, 0.0)

  /** One iteration over candidate `c` at index `ic`: a passing candidate
      whose `nearphopt` exceeds the running maximum becomes the choice, and
      the running maximum becomes `stored`. */
  function SearchStep(dR: AngleFn, pfc: PFCand, s: Search, ic: int, c: PFCand, stored: real): Search
  {
    if IsNearPhoton(dR, pfc, c) && c.nearphopt > s.maxPhotonPt then Search(ic, stored) else s
  }

  /** The loop as written, over the candidates in order: it stores `pt`. */
  function SearchAsWritten(dR: AngleFn, pfc: PFCand, cs: seq<PFCand>): Search
  {
    if |cs| == 0 then NoPhoton
    else
      var c := cs[|cs| - 1];
      SearchStep(dR, pfc, SearchAsWritten(dR, pfc, cs[..|cs| - 1]), |cs| - 1, c, c.pt)
  }

  /** The loop storing the quantity it compares, `nearphopt`. */
  function SearchMax(dR: AngleFn, pfc: PFCand, cs: seq<PFCand>): Search
  {
    if |cs| == 0 then NoPhoton
    else
      var c := cs[|cs| - 1];
      SearchStep(dR, pfc, SearchMax(dR, pfc, cs[..|cs| - 1]), |cs| - 1, c, c.nearphopt)
  }

  /** The outcome of the search as written: -1 exactly when no candidate
      passes the filters; otherwise a passing candidate whose `pt` (the value
      the code stores as the running maximum) is at least the `nearphopt`
      (the value it compares) of every later passing candidate. */
  predicate AsWrittenChoice(dR: AngleFn, pfc: PFCand, pfcands: seq<PFCand>, ind: int)
  {
    && -1 <= ind < |pfcands|
    && (ind == -1 <==> forall i :: 0 <= i < |pfcands| ==> !IsNearPhoton(dR, pfc, pfcands[i]))
    && (ind >= 0 ==>
          && IsNearPhoton(dR, pfc, pfcands[ind])
          && forall j :: ind < j < |pfcands| && IsNearPhoton(dR, pfc, pfcands[j]) ==>
               pfcands[j].nearphopt <= pfcands[ind].pt)
  }

  /** The search as written: it compares `nearphopt` against the running
      maximum but stores `pt` into it. */
  method GetNearPhotonIndex(dR: AngleFn, pfc: PFCand, pfcands: seq<PFCand>) returns (photonInd: int)
    ensures AsWrittenChoice(dR, pfc, pfcands, photonInd)
    ensures photonInd == SearchAsWritten(dR, pfc, pfcands).ind
  {
    photonInd := -1;
    var maxPhotonPT := 0.0;
    var ic := 0;
    while ic < |pfcands|
      invariant 0 <= ic <= |pfcands|
      invariant Search(photonInd, maxPhotonPT) == SearchAsWritten(dR, pfc, pfcands[..ic])
      invariant -1 <= photonInd < ic
      invariant photonInd == -1 <==> forall i :: 0 <= i < ic ==> !IsNearPhoton(dR, pfc, pfcands[i])
      invariant photonInd == -1 ==> maxPhotonPT == 0.0
      invariant photonInd >= 0 ==> IsNearPhoton(dR, pfc, pfcands[photonInd]) && maxPhotonPT == pfcands[photonInd].pt
      invariant photonInd >= 0 ==>
                  forall j :: photonInd < j < ic && IsNearPhoton(dR, pfc, pfcands[j]) ==>
                    pfcands[j].nearphopt <= maxPhotonPT
    {
      var c := pfcands[ic];
      if !(c.nearphopt < MinPhotonPt) {
        var dr := dR(c.eta, c.phi, pfc.nearphoeta, pfc.nearphophi);
        if !(dr > MaxPhotonDR) {
          if c.nearphopt > maxPhotonPT {
            maxPhotonPT := c.pt;
            photonInd := ic;
          }
        }
      }
      assert pfcands[..ic + 1][..ic] == pfcands[..ic];
      ic := ic + 1;
    }
    assert pfcands[..ic] == pfcands;
  }

  /** The search with one quantity for both the comparison and the running
      maximum: it returns the passing candidate with the largest `nearphopt`,
      the first one among equals. */
  method GetNearPhotonIndexMax(dR: AngleFn, pfc: PFCand, pfcands: seq<PFCand>) returns (photonInd: int)
    ensures -1 <= photonInd < |pfcands|
    ensures photonInd == -1 <==> forall i :: 0 <= i < |pfcands| ==> !IsNearPhoton(dR, pfc, pfcands[i])
    ensures photonInd >= 0 ==> IsNearPhoton(dR, pfc, pfcands[photonInd])
    ensures photonInd >= 0 ==>
              forall j :: 0 <= j < |pfcands| && IsNearPhoton(dR, pfc, pfcands[j]) ==>
                pfcands[j].nearphopt <= pfcands[photonInd].nearphopt
    ensures photonInd >= 0 ==>
              forall j :: 0 <= j < photonInd && IsNearPhoton(dR, pfc, pfcands[j]) ==>
                pfcands[j].nearphopt < pfcands[photonInd].nearphopt
    ensures photonInd == SearchMax(dR, pfc, pfcands).ind
  {
    photonInd := -1;
    var maxPhotonPT := 0.0;
    var ic := 0;
    while ic < |pfcands|
      invariant 0 <= ic <= |pfcands|
      invariant Search(photonInd, maxPhotonPT) == SearchMax(dR, pfc, pfcands[..ic])
      invariant -1 <= photonInd < ic
      invariant photonInd == -1 <==> forall i :: 0 <= i < ic ==> !IsNearPhoton(dR, pfc, pfcands[i])
      invariant photonInd == -1 ==> maxPhotonPT == 0.0
      invariant photonInd >= 0 ==> IsNearPhoton(dR, pfc, pfcands[photonInd]) && maxPhotonPT == pfcands[photonInd].nearphopt
      invariant photonInd >= 0 ==>
                  forall j :: 0 <= j < ic && IsNearPhoton(dR, pfc, pfcands[j]) ==>
                    pfcands[j].nearphopt <= maxPhotonPT
      invariant photonInd >= 0 ==>
                  forall j :: 0 <= j < photonInd && IsNearPhoton(dR, pfc, pfcands[j]) ==>
                    pfcands[j].nearphopt < maxPhotonPT
    {
      var c := pfcands[ic];
      if !(c.nearphopt < MinPhotonPt) {
        var dr := dR(c.eta, c.phi, pfc.nearphoeta, pfc.nearphophi);
        if !(dr > MaxPhotonDR) {
          if c.nearphopt > maxPhotonPT {
            maxPhotonPT := c.nearphopt;
            photonInd := ic;
          }
        }
      }
      assert pfcands[..ic + 1][..ic] == pfcands[..ic];
      ic := ic + 1;
    }
    assert pfcands[..ic] == pfcands;
  }

  /** A candidate with every field zero except the ones given. */
  function PhotonCand(pt: real, nearphopt: real): PFCand
  {
    PFCand(pt, 0.0, 0.0, 0.0, 0.0, 0.0, 0.0, 0.0, 0.0, 0.0, 0.0, 0.0, 0.0, -1, nearphopt, 0.0, 0.0)
  }

  /** Two passing candidates, the first with the larger `nearphopt` but the
      smaller `pt`: the search as written must return the second, while the
      corrected search returns the first. */
  lemma NearPhotonQuirk(ind: int)
    requires AsWrittenChoice((a, b, c, d) => 0.0, PhotonCand(0.0, 0.0),
                             [PhotonCand(1.0, 5.0), PhotonCand(0.0, 2.0)], ind)
    ensures ind == 1
    ensures PhotonCand(1.0, 5.0).nearphopt > PhotonCand(0.0, 2.0).nearphopt
    ensures SearchAsWritten((a, b, c, d) => 0.0, PhotonCand(0.0, 0.0),
                            [PhotonCand(1.0, 5.0), PhotonCand(0.0, 2.0)]).ind == 1
    ensures SearchMax((a, b, c, d) => 0.0, PhotonCand(0.0, 0.0),
                      [PhotonCand(1.0, 5.0), PhotonCand(0.0, 2.0)]).ind == 0
  {
    var cands := [PhotonCand(1.0, 5.0), PhotonCand(0.0, 2.0)];
    assert IsNearPhoton((a, b, c, d) => 0.0, PhotonCand(0.0, 0.0), cands[0]);
    assert IsNearPhoton((a, b, c, d) => 0.0, PhotonCand(0.0, 0.0), cands[1]);
  }
}

=== FILE: tau_select.dfy ===
/** Threshold selection of the tau MVA score (`tauMVACompare.SelTauMVA`) and
    the six working points the module writes out. */
module TauSelect {
  import opened Common

  /** Discriminator cuts of the branches TauMVA_Stop0l_68, _70, _71, _73, _74
      and _75, in that order: loosest first. */
  const Thresholds: seq<real> := [0.68, 0.70, 0.71, 0.73, 0.74, 0.75]

  /** The score a candidate keeps when it never reaches the classifier. */
  const NoScore: real := -10.0

  /** One flag per score: the score lies strictly above the cut. */
  function SelTauMVA(mva: seq<real>, disc: real): (sel: seq<bool>)
    ensures |sel| == |mva|
    ensures forall i :: 0 <= i < |mva| ==> (sel[i] <==> mva[i] > disc)
  {
    if |mva| == 0 then []
    else SelTauMVA(mva[..|mva| - 1], disc) + [mva[|mva| - 1] > disc]
  }

  /** Raising the cut can only remove candidates from the selection. */
  lemma {:induction false} SelTauMVANested(mva: seq<real>, lo: real, hi: real)
    requires lo <= hi
    ensures forall i :: 0 <= i < |mva| && SelTauMVA(mva, hi)[i] ==> SelTauMVA(mva, lo)[i]
    ensures CountTrue(SelTauMVA(mva, hi)) <= CountTrue(SelTauMVA(mva, lo))
  {
    CountTrueMonotone(SelTauMVA(mva, hi), SelTauMVA(mva, lo));
  }

  /** The cuts are listed in increasing order, and the placeholder score of a
      candidate that was never scored fails every one of them. */
  lemma ThresholdsAscending()
    ensures forall k :: 0 <= k < |Thresholds| - 1 ==> Thresholds[k] < Thresholds[k + 1]
    ensures forall k :: 0 <= k < |Thresholds| ==> !(NoScore > Thresholds[k])
  {
  }
}
